=== FILE: README.md ===
# Attendance tracker: a Dafny model of its stores and page logic

This project models the logic of a small classroom-attendance front end.
The application keeps two in-memory stores. The attendance store holds the
seeded classes, the id of the current class, a status update and a
count-by-status query. The auth store holds at most one signed-in user.
Login and registration check the email against two seeded demo accounts;
a registration signs in a new user that is not added to them. Three pieces of page logic sit on top:

- the take-attendance page walks a cursor through the current roster;
- the login page validates its forms before calling the auth store;
- a simulated fingerprint scanner keeps three flags and reports success or
  failure through callbacks.

Everything is modelled as pure functions over immutable datatypes:

- `types.dfy` (`Types`): the records of `src/types.ts`, JavaScript's
  `find` (`FindIndex`, `Find`) and string truthiness.
- `attendance_store.dfy` (`AttendanceStore`): the attendance store.
- `auth_store.dfy` (`AuthStore`): the auth store. Each asynchronous
  operation is one step `(state, input) -> (state, outcome)`. A thrown
  error is `Err` and leaves the state unchanged.
- `scanner.dfy` (`Scanner`): the scanner as a state machine over taps and
  timer firings. The random draw is an input.
- `take_attendance.dfy` (`TakeAttendance`): the access guard, the cursor
  walk, the page view and the dispatch of scanner callbacks.
- `login_page.dfy` (`LoginPage`): the submit handlers and the
  fingerprint-login callbacks.

Navigation is modelled as a route label or an outcome value.

Behaviours of the code that are easy to misread:

- Selecting an unknown class id is not a no-op. The id is stored, and the
  current class becomes null (`SetCurrentClass`, `UnknownClassFreezesUpdates`).
- Registration rejects only the two seeded emails. A registered user is
  never added to the list, so the same new email can register again
  (`RegisterIsRepeatable`).
- JavaScript truthiness matters. An empty current class id makes
  `updateStudentStatus` a no-op. An empty `classId` makes `getStatistics`
  fall back to the current class.
- When a scan completes, the code sets one result flag and leaves the other
  as it was. "Exactly one result" holds only because starting a scan
  cleared both (`CompleteScan`, `ReachableAtMostOneFlag`).
- Fingerprint login on the login page navigates without signing anyone in
  (`FingerprintLoginLeavesVisitorSignedOut`).

## Model

| member | source | states |
|---|---|---|
| Types.FindIndex | src/contexts/AuthContext.tsx:54 | the index found is the first one whose element satisfies the predicate; none is found iff no element satisfies it |
| Types.Find | src/contexts/AttendanceContext.tsx:53 | the element found satisfies the predicate and no earlier one does; none is found iff no element satisfies it |
| AttendanceStore.Init | src/contexts/AttendanceContext.tsx:50-51 | the initial classes are the seeded ones and the current id is the first seeded class's id |
| AttendanceStore.InitialStatistics | src/contexts/AttendanceContext.tsx:7-51 | initially the current class is "Computer Science 101", with statistics present 5, absent 2, late 1, total 8 |
| AttendanceStore.FindClass | src/contexts/AttendanceContext.tsx:84 | the lookup by id fails iff no class has the id; a found class has the id and belongs to the list |
| AttendanceStore.CurrentClass | src/contexts/AttendanceContext.tsx:53 | a current class exists iff the current id is set and some class has it; it then has that id and belongs to the list |
| AttendanceStore.SetCurrentClass | src/contexts/AttendanceContext.tsx:55-57 | classes are untouched and the id is recorded whatever it is; the current class is null iff no class has the id |
| AttendanceStore.MarkRoster | src/contexts/AttendanceContext.tsx:67-69 | the roster keeps its length, order, ids and names; students with the id get the new status and all others are unchanged |
| AttendanceStore.UpdateStudentStatus | src/contexts/AttendanceContext.tsx:59-74 | a missing or empty current id changes nothing; otherwise class order, ids and names are kept, classes with another id are identical, and the current class's roster is marked |
| AttendanceStore.UpdateMarksCurrentClass | src/contexts/AttendanceContext.tsx:53-74 | after an update the current class still resolves iff it did before; it keeps its id and name, and its roster is the old roster marked |
| AttendanceStore.UpdateIdempotent | src/contexts/AttendanceContext.tsx:62-74 | repeating the same update leaves the store as the first update left it |
| AttendanceStore.UnknownClassFreezesUpdates | src/contexts/AttendanceContext.tsx:53-74 | after selecting an id no class has, there is no current class and every update leaves the store unchanged |
| AttendanceStore.RosterStatistics | src/contexts/AttendanceContext.tsx:91-101 | each filtered count equals the number of students with that status, the total is the roster length, and present + absent + late = total |
| AttendanceStore.GetStatistics | src/contexts/AttendanceContext.tsx:82-102 | the target is the class with a non-empty given id, otherwise the current class; with no target all counts are zero; otherwise the counts are that roster's per-status counts and its length |
| AttendanceStore.FilterCountsTally | src/contexts/AttendanceContext.tsx:92-94 | the length of the status filter equals the multiplicity of the status in the roster's statuses |
| AttendanceStore.TalliesSum | src/contexts/AttendanceContext.tsx:91-100 | the three per-status counts add up to the roster length |
| AttendanceStore.ExplicitClassIgnoresCurrent | src/contexts/AttendanceContext.tsx:83-85 | with a non-empty class id, two stores with the same classes give the same statistics whatever their current class |
| AttendanceStore.Filter | src/contexts/AttendanceContext.tsx:92-94 | the filter keeps exactly the students with the status: everything kept has the status and comes from the roster, and every student with the status is kept |
| AttendanceStore.ReachableWellFormed | src/contexts/AttendanceContext.tsx:7-74 | in every store reached from the seeded one by any sequence of class selections and status updates, no two students of a class share an id and every class id is non-empty |
| AttendanceStore.WellFormedAlong | src/contexts/AttendanceContext.tsx:55-74 | selecting a class and updating a status never make two students of a class share an id nor empty a class id |
| AttendanceStore.MarkMovesOneCount | src/contexts/AttendanceContext.tsx:67-69 | with distinct ids, marking one student removes one occurrence of the old status and adds one of the new |
| AuthStore.IsAuthenticated | src/contexts/AuthContext.tsx:98 | a user is authenticated iff the state is not the signed-out one |
| AuthStore.NatToString | src/contexts/AuthContext.tsx:60 | the decimal rendering is non-empty, all digits, and has no leading zero unless the number is 0 |
| AuthStore.ParseDecimalOfNatToString | src/contexts/AuthContext.tsx:60 | reading the decimal rendering back yields the number |
| AuthStore.Login | src/contexts/AuthContext.tsx:27-46 | success iff some seeded user has exactly this email; on success the user is that seeded user; on failure the state is unchanged and InvalidCredentials is returned |
| AuthStore.LoginSeededAccounts | src/contexts/AuthContext.tsx:7-40 | the two seeded emails log in, with any password, as exactly the first and the second seeded user |
| AuthStore.LoginIgnoresPassword | src/contexts/AuthContext.tsx:32-40 | the password never changes the outcome of login |
| AuthStore.Register | src/contexts/AuthContext.tsx:48-73 | failure iff a seeded user has the email; on failure the state is unchanged and UserAlreadyExists is returned; on success the user is id "3" with the given name, email and role |
| AuthStore.RegisterIsRepeatable | src/contexts/AuthContext.tsx:54-67 | after a successful registration the same email registers again and still cannot log in |
| AuthStore.RegisteredIdIsSeededCountPlusOne | src/contexts/AuthContext.tsx:59-64 | a new email always registers, and the new id reads back as the seeded count plus one |
| AuthStore.Logout | src/contexts/AuthContext.tsx:75-78 | afterwards nobody is authenticated |
| AuthStore.LogoutForgetsSession | src/contexts/AuthContext.tsx:75-78 | logging out gives the same state whoever was signed in, so it is idempotent and undoes a fingerprint sign-in |
| AuthStore.AuthenticateWithFingerprint | src/contexts/AuthContext.tsx:80-92 | afterwards the user is the first seeded user, the teacher |
| AuthStore.AuthenticationFollowsOutcome | src/contexts/AuthContext.tsx:98 | isAuthenticated holds after a successful login, registration or fingerprint sign-in; it is unchanged by a failed login and false after logout |
| Scanner.HandleScan | src/components/FingerprintScanner.tsx:19-22 | starting a scan sets scanning and clears error and success |
| Scanner.CompleteScan | src/components/FingerprintScanner.tsx:25-38 | completion clears scanning; success and onSuccess iff the draw exceeds 0.2, else error and onError; from a cleared state exactly one result flag holds |
| Scanner.Step | src/components/FingerprintScanner.tsx:19-45 | a tap while scanning does nothing; a tap otherwise starts a scan; a timer firing completes the scan with the callback matching the flag; every step keeps at most one flag set |
| Scanner.ReachableAtMostOneFlag | src/components/FingerprintScanner.tsx:15-38 | at most one of scanning, error and success holds after any sequence of events |
| Scanner.ScanRoundTrip | src/components/FingerprintScanner.tsx:19-38 | a tap followed by the timer sets exactly the flag chosen by the draw and invokes exactly that one callback |
| Scanner.ScanButtonEnabled | src/components/FingerprintScanner.tsx:45 | the scan button is enabled iff the label is not the scanning one |
| Scanner.StatusLabel | src/components/FingerprintScanner.tsx:66-74 | the label follows the precedence scanning > error > success > idle |
| Scanner.LabelShowsTheOnlyFlag | src/components/FingerprintScanner.tsx:66-74 | in a reachable state the failed and succeeded labels show exactly when their own flag holds |
| TakeAttendance.Roster | src/pages/TakeAttendancePage.tsx:36 | the roster is the current class's students; a non-empty roster implies a current class |
| TakeAttendance.MarkedStatus | src/pages/TakeAttendancePage.tsx:39-72 | a fingerprint match writes present, a failed scan absent, a button its own status; only a button can write late |
| TakeAttendance.RosterAfterUpdate | src/pages/TakeAttendancePage.tsx:14-36 | the page's roster after a store update is the old roster marked, or unchanged when the current id is missing or empty |
| TakeAttendance.Handle | src/pages/TakeAttendancePage.tsx:36-80 | without a student at the cursor nothing changes; otherwise that student is marked with the handler's status; the cursor advances by one unless it is on the last student, in which case the walk completes |
| TakeAttendance.HandleKeepsCursorInRoster | src/pages/TakeAttendancePage.tsx:16-80 | for a non-empty roster the cursor stays within 0 to length - 1 |
| TakeAttendance.HandleMarksOnlyCursor | src/pages/TakeAttendancePage.tsx:39-80 | with distinct ids, a handler changes exactly the status of the student at the cursor |
| TakeAttendance.WalkMarksInOrder | src/pages/TakeAttendancePage.tsx:69-80 | k marks from the start mark the first k students in roster order; the cursor is at k before the end, and the walk completes after the n-th mark |
| TakeAttendance.WalkMovesCursor | src/pages/TakeAttendancePage.tsx:69-80 | for any store, k marks from the start keep the roster's length; the cursor is at k before the end, and the walk completes with the n-th mark |
| TakeAttendance.ReachableRosterMeetsPremises | src/pages/TakeAttendancePage.tsx:14-36 | in every store reached from the seeded one, the page's roster has distinct ids and a non-empty roster comes with a non-empty current class id: both premises of the marking lemmas |
| TakeAttendance.ReachableWalkMarksInOrder | src/pages/TakeAttendancePage.tsx:39-80 | in every reachable store, k marks from the start mark exactly the first k students in roster order, each with its own mark |
| TakeAttendance.PageView | src/pages/TakeAttendancePage.tsx:86-165 | nothing renders without a current class; the completion view shows iff a current class exists and the walk is complete; the per-student view shows the student at the cursor, its position and the roster size; otherwise the area is empty |
| TakeAttendance.OfferedHandle | src/pages/TakeAttendancePage.tsx:115-165 | marks reach the store only while the per-student view is shown |
| TakeAttendance.CompletionIsFinal | src/pages/TakeAttendancePage.tsx:105-115 | for any store, after as many marks as the roster has students the completion view shows and no further mark changes anything |
| TakeAttendance.AccessGuard | src/pages/TakeAttendancePage.tsx:19-34 | an unauthenticated user goes only to login; a non-teacher and a missing class each send an authenticated user to the dashboard; the page stays iff the user is an authenticated teacher and a class is current |
| TakeAttendance.OnScanCallback | src/pages/TakeAttendancePage.tsx:130-133 | onSuccess runs the fingerprint-success handler, onError runs the fingerprint-error handler, and no callback changes nothing |
| TakeAttendance.ScanMarksStudent | src/pages/TakeAttendancePage.tsx:39-67 | a completed scan marks the student at the cursor present iff the draw exceeds 0.2, and absent otherwise |
| LoginPage.LoginSubmit | src/pages/LoginPage.tsx:35-52 | an empty email or password is rejected before login is called; navigation happens iff both are filled and the email is seeded; a filled form ends in login's state and reports login's error; otherwise the user is unchanged |
| LoginPage.LoginSubmitCallsStore | src/pages/LoginPage.tsx:38-47 | a form with both fields filled always reaches login; the page ends in the state login produces and navigates iff login succeeds, reporting its error otherwise |
| LoginPage.RegisterSubmit | src/pages/LoginPage.tsx:54-87 | incompleteness (a field or the fingerprint) is rejected first, then a password mismatch; navigation happens iff both checks pass and the email is new, and then the user is id "3" with the form's name, email and role |
| LoginPage.RegisterButtonEnabled | src/pages/LoginPage.tsx:305 | the register button is enabled iff no submission is in flight and the completeness check could pass, which needs a registered fingerprint |
| LoginPage.UnregisteredFingerprintBlocksRegistration | src/pages/LoginPage.tsx:302-306 | without a registered fingerprint the register button is disabled, and the handler rejects before calling the store |
| LoginPage.RegisterSubmitCallsStore | src/pages/LoginPage.tsx:73-86 | a submission that passes the checks ends in exactly the state register produces from name, email, password and role, and navigates iff register succeeds |
| LoginPage.FingerprintLoginSuccess | src/pages/LoginPage.tsx:93-98 | fingerprint-login success navigates to the dashboard and leaves the user unchanged |
| LoginPage.OnLoginScanCallback | src/pages/LoginPage.tsx:93-102 | the user is never changed; onSuccess navigates and onError reports a failure |
| LoginPage.FingerprintLoginLeavesVisitorSignedOut | src/pages/LoginPage.tsx:93-98 | a signed-out visitor stays signed out after fingerprint login, so the take-attendance guard sends them to login; the store's own fingerprint sign-in would have let them in |

## Left out

- Rendering, styling, toast notifications and routing side effects. Navigation appears only as a route label or an outcome value.
- `setTimeout` delays and `async`/`await`. Each store operation, each scan completion and each delayed cursor advance is one atomic step.
- Interleavings: a manual mark made while a scan is pending, whose late callback then uses a stale cursor. The model has no concurrency.
- The stale-closure toast in `updateStudentStatus`, which reads the class before the update. It only affects a message.
- Scanner.CompleteScan: the draw is an exact real compared with the real 0.2. `Math.random()` returns a double compared with the double nearest 0.2, and the two comparisons differ only at that one double. The 80/20 distribution is not modelled.
- Scanner.Step: a timer event with no scan pending does nothing. A timer is pending exactly while `scanning` holds, because only starting a scan sets the flag and only the timer clears it.
- The `isSubmitting` flag. Submissions are atomic, so it is false between steps. It appears only as an input to `RegisterButtonEnabled`.
- src/components/AttendanceCard.tsx, StudentCard.tsx, Header.tsx and src/pages/DashboardPage.tsx. They compose views or forward to store calls already modelled. The card's percentage is floating-point division and rounding.
- src/components/FingerprintRegistration.tsx: a UI toggle around the scanner. Whether the fingerprint is registered is an input to `RegisterSubmit`.
- The React context plumbing (`useAttendance`, `useAuth`) and the unused `AttendanceRecord` type.
- The status badge's fallback for unrecognised values. A status here is always one of the three values.
- TakeAttendance.WalkMarksInOrder: assumes the roster's student ids are distinct and the current class id is non-empty. `ReachableRosterMeetsPremises` shows both hold in every store reachable from the seeded one, and `ReachableWalkMarksInOrder` states the walk there without premises. With a repeated id, a later mark also rewrites earlier students with that id. `Handle` and `UpdateStudentStatus` still model that case.

=== FILE: attendance_store.dfy ===
/** The attendance store (src/contexts/AttendanceContext.tsx): the seeded
    classes, the id of the current class, the status update applied to the
    current class's roster, and the count-by-status query. */
module AttendanceStore {
  import opened Types

  /** The store's state: the class list and the current class id
      (`string | null`). */
  datatype Store = Store(classes: seq<Class>, currentClassId: Option<string>)

  datatype Statistics = Statistics(present: nat, absent: nat, late: nat, total: nat)

  const NoStatistics := Statistics(0, 0, 0, 0)

  function DemoClasses(): seq<Class> {
    [ Class("1", "Computer Science 101",
        [ Student("s1", "Alex Johnson", Present),
          Student("s2", "Maria Garcia", Absent),
          Student("s3", "James Wilson", Present),
          Student("s4", "Emma Brown", Late),
          Student("s5", "Michael Davis", Present),
          Student("s6", "Sophia Martinez", Present),
          Student("s7", "Daniel Lee", Absent),
          Student("s8", "Olivia Miller", Present) ]),
      Class("2", "Mathematics 202",
        [ Student("s9", "William Moore", Present),
          Student("s10", "Ava Taylor", Present),
          Student("s11", "Ethan Anderson", Late),
          Student("s12", "Charlotte Thomas", Absent) ]) ]
  }

  /** The initial state: the seeded classes, with the first seeded class's
      id current (null only if that id were missing or empty). */
  function Init(): (s: Store)
    ensures s.classes == DemoClasses()
    ensures s.currentClassId == Some(DemoClasses()[0].id)
  {
    var first := if |DemoClasses()| > 0 && Truthy(DemoClasses()[0].id)
                 then Some(DemoClasses()[0].id) else None;
    Store(DemoClasses(), first)
  }

  /** The lookup of a class by id: the first class carrying it. */
  function FindClass(classes: seq<Class>, id: string): (r: Option<Class>)
    ensures r.None? <==> forall i :: 0 <= i < |classes| ==> classes[i].id != id
    ensures r.Some? ==> r.value.id == id && r.value in classes
  {
    Find(classes, (c: Class) => c.id == id)
  }

  /** `currentClass`: the first class whose id is the current id, or null. */
  function CurrentClass(s: Store): (r: Option<Class>)
    ensures r.Some? <==> s.currentClassId.Some? &&
                         exists i :: 0 <= i < |s.classes| && s.classes[i].id == s.currentClassId.value
    ensures r.Some? ==> r.value.id == s.currentClassId.value && r.value in s.classes
  {
    match s.currentClassId
    case None => None
    case Some(id) => FindClass(s.classes, id)
  }

  /** `setCurrentClass`: records the id whether or not a class has it. */
  function SetCurrentClass(s: Store, classId: string): (r: Store)
    ensures r.classes == s.classes
    ensures r.currentClassId == Some(classId)
    ensures (forall i :: 0 <= i < |s.classes| ==> s.classes[i].id != classId) <==> CurrentClass(r).None?
  {
    s.(currentClassId := Some(classId))
  }

  /** `after` is `before` with the status of every student whose id is
      `studentId` set to `status`, and nothing else changed. */
  ghost predicate Marked(before: seq<Student>, after: seq<Student>, studentId: string, status: AttendanceStatus) {
    && |after| == |before|
    && (forall j :: 0 <= j < |before| ==> after[j].id == before[j].id && after[j].name == before[j].name)
    && (forall j :: 0 <= j < |before| && before[j].id == studentId ==> after[j].status == status)
    && (forall j :: 0 <= j < |before| && before[j].id != studentId ==> after[j] == before[j])
  }

  /** The inner map of the status update: every student whose id matches
      is copied with the new status, every other student is kept. */
  function MarkRoster(students: seq<Student>, studentId: string, status: AttendanceStatus): (r: seq<Student>)
    ensures Marked(students, r, studentId, status)
  {
    seq(|students|, j requires 0 <= j < |students| =>
      if students[j].id == studentId then students[j].(status := status) else students[j])
  }

  /** The class with the given id, relabelled by `MarkRoster`. */
  function MarkClass(c: Class, classId: string, studentId: string, status: AttendanceStatus): Class {
    if c.id == classId then c.(students := MarkRoster(c.students, studentId, status)) else c
  }

  /** `updateStudentStatus`: a no-op without a (truthy) current class id;
      otherwise every class with that id gets the matching students' status
      replaced. */
  function UpdateStudentStatus(s: Store, studentId: string, status: AttendanceStatus): (r: Store)
    ensures r.currentClassId == s.currentClassId
    ensures s.currentClassId.None? || !Truthy(s.currentClassId.value) ==> r == s
    ensures |r.classes| == |s.classes|
    ensures forall i :: 0 <= i < |s.classes| ==>
              r.classes[i].id == s.classes[i].id && r.classes[i].name == s.classes[i].name
    ensures forall i :: 0 <= i < |s.classes| && Some(s.classes[i].id) != s.currentClassId ==>
              r.classes[i] == s.classes[i]
    ensures forall i :: 0 <= i < |s.classes| && Some(s.classes[i].id) == s.currentClassId && Truthy(s.classes[i].id) ==>
              Marked(s.classes[i].students, r.classes[i].students, studentId, status)
  {
    match s.currentClassId
    case None => s
    case Some(cid) =>
      if !Truthy(cid) then s
      else s.(classes := seq(|s.classes|, i requires 0 <= i < |s.classes| =>
                               MarkClass(s.classes[i], cid, studentId, status)))
  }

  /** The filter by status that the statistics count: the students with
      that status, in roster order. */
  function Filter(students: seq<Student>, status: AttendanceStatus): (r: seq<Student>)
    ensures |r| <= |students|
    ensures forall k :: 0 <= k < |r| ==> r[k].status == status && r[k] in students
    ensures forall j :: 0 <= j < |students| && students[j].status == status ==> students[j] in r
    decreases |students|
  {
    if |students| == 0 then []
    else if students[0].status == status then [students[0]] + Filter(students[1..], status)
    else Filter(students[1..], status)
  }

  function Statuses(students: seq<Student>): (r: seq<AttendanceStatus>)
    ensures |r| == |students|
    ensures forall j :: 0 <= j < |students| ==> r[j] == students[j].status
  {
    seq(|students|, j requires 0 <= j < |students| => students[j].status)
  }

  /** Reference count: how many students of the roster have `status`. */
  function Tally(students: seq<Student>, status: AttendanceStatus): nat {
    multiset(Statuses(students))[status]
  }

  /** The statistics of one roster. */
  function RosterStatistics(students: seq<Student>): (r: Statistics)
    ensures r.present == Tally(students, Present)
    ensures r.absent == Tally(students, Absent)
    ensures r.late == Tally(students, Late)
    ensures r.total == |students|
    ensures r.present + r.absent + r.late == r.total
  {
    FilterCountsTally(students, Present);
    FilterCountsTally(students, Absent);
    FilterCountsTally(students, Late);
    TalliesSum(students);
    Statistics(|Filter(students, Present)|, |Filter(students, Absent)|,
               |Filter(students, Late)|, |students|)
  }

  /** `getStatistics(classId?)`: a truthy class id selects that class, an
      absent or empty one the current class; zeros when there is none. */
  function GetStatistics(s: Store, classId: Option<string>): (r: Statistics)
    ensures r.present + r.absent + r.late == r.total
    ensures var target := if classId.Some? && Truthy(classId.value)
                          then FindClass(s.classes, classId.value) else CurrentClass(s);
            && (target.None? ==> r == NoStatistics)
            && (target.Some? ==> r.total == |target.value.students|
                                 && r.present == Tally(target.value.students, Present)
                                 && r.absent == Tally(target.value.students, Absent)
                                 && r.late == Tally(target.value.students, Late))
  {
    var target := if classId.Some? && Truthy(classId.value)
                  then FindClass(s.classes, classId.value) else CurrentClass(s);
    match target
    case None => NoStatistics
    case Some(c) => RosterStatistics(c.students)
  }

  // ---------------------------------------------------------------------
  // Reachable stores

  /** A call a page can make on the store. */
  datatype StoreOp = Select(classId: string) | Update(studentId: string, status: AttendanceStatus)

  function Apply(s: Store, op: StoreOp): Store {
    match op
    case Select(classId) => SetCurrentClass(s, classId)
    case Update(studentId, status) => UpdateStudentStatus(s, studentId, status)
  }

  /** The store after a sequence of calls, in order. */
  function ApplyAll(s: Store, ops: seq<StoreOp>): Store
    decreases |ops|
  {
    if |ops| == 0 then s else ApplyAll(Apply(s, ops[0]), ops[1..])
  }

  /** Within each class, no two students share an id. */
  ghost predicate RostersDistinct(s: Store) {
    forall i :: 0 <= i < |s.classes| ==> DistinctIds(s.classes[i].students)
  }

  /** Every class id is non-empty, so a class that is current was selected
      by a truthy id. */
  ghost predicate ClassIdsTruthy(s: Store) {
    forall i :: 0 <= i < |s.classes| ==> Truthy(s.classes[i].id)
  }

  /** What the seeded data guarantees and every call keeps. */
  ghost predicate WellFormed(s: Store) {
    RostersDistinct(s) && ClassIdsTruthy(s)
  }

  lemma SeededWellFormed()
    ensures WellFormed(Init())
  {
  }

  /** Neither call changes a class id or a student id, so both properties
      survive. */
  lemma ApplyKeepsWellFormed(s: Store, op: StoreOp)
    requires WellFormed(s)
    ensures WellFormed(Apply(s, op))
  {
  }

  /** In every store reachable from the seeded one, each roster has
      distinct ids and every class id is non-empty. */
  lemma {:induction false} ReachableWellFormed(ops: seq<StoreOp>)
    ensures WellFormed(ApplyAll(Init(), ops))
  {
    SeededWellFormed();
    WellFormedAlong(Init(), ops);
  }

  lemma {:induction false} WellFormedAlong(s: Store, ops: seq<StoreOp>)
    requires WellFormed(s)
    ensures WellFormed(ApplyAll(s, ops))
    decreases |ops|
  {
    if |ops| > 0 {
      ApplyKeepsWellFormed(s, ops[0]);
      WellFormedAlong(Apply(s, ops[0]), ops[1..]);
    }
  }

  // ---------------------------------------------------------------------
  // Counting

  lemma {:induction false} FilterCountsTally(students: seq<Student>, status: AttendanceStatus)
    ensures |Filter(students, status)| == Tally(students, status)
    decreases |students|
  {
    if |students| > 0 {
      FilterCountsTally(students[1..], status);
      assert Statuses(students) == [students[0].status] + Statuses(students[1..]);
    }
  }

  /** Every student has exactly one of the three statuses, so the per-status
      counts add up to the roster size. */
  lemma {:induction false} TalliesSum(students: seq<Student>)
    ensures Tally(students, Present) + Tally(students, Absent) + Tally(students, Late) == |students|
    decreases |students|
  {
    if |students| > 0 {
      TalliesSum(students[1..]);
      assert Statuses(students) == [students[0].status] + Statuses(students[1..]);
    }
  }

  // ---------------------------------------------------------------------
  // Properties of the store

  /** With an explicit class id the statistics depend only on the class
      list, not on which class is current. */
  lemma ExplicitClassIgnoresCurrent(s: Store, t: Store, classId: string)
    requires s.classes == t.classes
    requires Truthy(classId)
    ensures GetStatistics(s, Some(classId)) == GetStatistics(t, Some(classId))
  {
  }

  /** Updating leaves the current class resolvable exactly when it was, and
      the current class then carries the new status for every matching
      student. */
  lemma UpdateMarksCurrentClass(s: Store, studentId: string, status: AttendanceStatus)
    requires s.currentClassId.Some? && Truthy(s.currentClassId.value)
    ensures var r := UpdateStudentStatus(s, studentId, status);
            && CurrentClass(r).Some? == CurrentClass(s).Some?
            && (CurrentClass(s).Some? ==>
                  CurrentClass(r).value.id == CurrentClass(s).value.id
                  && CurrentClass(r).value.name == CurrentClass(s).value.name
                  && Marked(CurrentClass(s).value.students, CurrentClass(r).value.students, studentId, status))
  {
    var r := UpdateStudentStatus(s, studentId, status);
    var cid := s.currentClassId.value;
    var p := (c: Class) => c.id == cid;
    FindIndexCongruent(s.classes, p, r.classes, p);
  }

  /** Repeating an update changes nothing more. */
  lemma UpdateIdempotent(s: Store, studentId: string, status: AttendanceStatus)
    ensures var r := UpdateStudentStatus(s, studentId, status);
            UpdateStudentStatus(r, studentId, status) == r
  {
    var r := UpdateStudentStatus(s, studentId, status);
    var r2 := UpdateStudentStatus(r, studentId, status);
    if s.currentClassId.Some? && Truthy(s.currentClassId.value) {
      forall i | 0 <= i < |r.classes|
        ensures r2.classes[i] == r.classes[i]
      {
        if Some(r.classes[i].id) == r.currentClassId {
          assert r2.classes[i].students == r.classes[i].students;
        }
      }
    }
  }

  /** Marking one student of a roster with distinct ids moves exactly one
      count from the old status to the new one; the total is unchanged. */
  lemma MarkMovesOneCount(students: seq<Student>, k: nat, status: AttendanceStatus)
    requires DistinctIds(students)
    requires k < |students|
    ensures var after := MarkRoster(students, students[k].id, status);
            && |after| == |students|
            && multiset(Statuses(after))
                 == multiset(Statuses(students)) - multiset{students[k].status} + multiset{status}
  {
    var after := MarkRoster(students, students[k].id, status);
    assert Statuses(after) == Statuses(students)[k := status];
  }

  /** After selecting an unknown class there is no current class, and
      updates leave every class as it was. */
  lemma UnknownClassFreezesUpdates(s: Store, classId: string, studentId: string, status: AttendanceStatus)
    requires forall i :: 0 <= i < |s.classes| ==> s.classes[i].id != classId
    ensures CurrentClass(SetCurrentClass(s, classId)).None?
    ensures UpdateStudentStatus(SetCurrentClass(s, classId), studentId, status) == SetCurrentClass(s, classId)
  {
    var t := SetCurrentClass(s, classId);
    var r := UpdateStudentStatus(t, studentId, status);
    assert r.classes == t.classes;
  }

  /** The seeded start: "Computer Science 101" is current, with 5 present,
      2 absent and 1 late out of 8. */
  lemma InitialStatistics()
    ensures CurrentClass(Init()) == Some(DemoClasses()[0])
    ensures GetStatistics(Init(), None) == Statistics(5, 2, 1, 8)
  {
    var p := (c: Class) => c.id == "1";
    assert FindIndex(DemoClasses(), p) == Some(0);
    assert CurrentClass(Init()) == Some(DemoClasses()[0]);
    SeededRosterStatistics();
  }

  lemma SeededRosterStatistics()
    ensures RosterStatistics(DemoClasses()[0].students) == Statistics(5, 2, 1, 8)
  {
    var roster := DemoClasses()[0].students;
    var m := multiset(Statuses(roster));
    assert Statuses(roster) == [Present, Absent, Present, Late, Present, Present, Absent, Present];
    assert m == multiset{Present, Present, Present, Present, Present, Absent, Absent, Late};
    assert m[Present] == 5 && m[Absent] == 2 && m[Late] == 1;
  }
}

=== FILE: auth_store.dfy ===
/** The authentication store (src/contexts/AuthContext.tsx): at most one
    signed-in user, looked up by email in a fixed list of two demo accounts.
    Each asynchronous operation is one atomic step from a state to a state
    and an outcome; a thrown error becomes `Err` and leaves the state as it
    was. */
module AuthStore {
  import opened Types

  datatype AuthState = AuthState(user: Option<User>)

  datatype AuthError = InvalidCredentials | UserAlreadyExists

  /** Whether the awaited call resolved or rejected. */
  datatype Outcome = Ok | Err(error: AuthError)

  function DemoUsers(): seq<User> {
    [ User("1", "John Smith", "teacher@example.com", true),
      User("2", "Jane Doe", "student@example.com", false) ]
  }

  const SignedOut := AuthState(None)

  /** Whether anyone is signed in: the user is not null. */
  predicate IsAuthenticated(s: AuthState): (r: bool)
    ensures r <==> s != SignedOut
  {
    s.user.Some?
  }

  /** Some seeded account has exactly this email. */
  ghost predicate KnownEmail(email: string) {
    exists i :: 0 <= i < |DemoUsers()| && DemoUsers()[i].email == email
  }

  // ---------------------------------------------------------------------
  // Decimal rendering of the new user's id (`String(n)`)

  function DigitChar(d: nat): (c: char)
    requires d < 10
    ensures '0' <= c <= '9'
  {
    "0123456789"[d]
  }

  function DigitValue(c: char): nat
    requires '0' <= c <= '9'
  {
    (c as int - '0' as int) as nat
  }

  /** `String(n)` for a non-negative integer: its decimal digits, no
      leading zero. */
  function NatToString(n: nat): (r: string)
    ensures |r| >= 1
    ensures forall k :: 0 <= k < |r| ==> '0' <= r[k] <= '9'
    ensures r[0] == '0' ==> n == 0
    decreases n
  {
    if n < 10 then [DigitChar(n)] else NatToString(n / 10) + [DigitChar(n % 10)]
  }

  /** Reads a string of decimal digits back as a number. */
  function ParseDecimal(s: string): nat
    requires forall k :: 0 <= k < |s| ==> '0' <= s[k] <= '9'
    decreases |s|
  {
    if |s| == 0 then 0 else ParseDecimal(s[..|s| - 1]) * 10 + DigitValue(s[|s| - 1])
  }

  lemma {:induction false} ParseDecimalOfNatToString(n: nat)
    ensures ParseDecimal(NatToString(n)) == n
    decreases n
  {
    var r := NatToString(n);
    if n >= 10 {
      ParseDecimalOfNatToString(n / 10);
      assert r[..|r| - 1] == NatToString(n / 10);
      assert DigitValue(DigitChar(n % 10)) == n % 10;
    } else {
      assert DigitValue(DigitChar(n)) == n;
    }
  }

  // ---------------------------------------------------------------------
  // Operations

  /** `login(email, password)`: the first seeded account with this exact
      email becomes the user; the password is never looked at. */
  function Login(s: AuthState, email: string, password: string): (r: (AuthState, Outcome))
    ensures r.1.Ok? <==> KnownEmail(email)
    ensures r.1.Ok? ==> r.0.user.Some? && r.0.user.value in DemoUsers() && r.0.user.value.email == email
    ensures r.1.Err? ==> r.0 == s && r.1.error == InvalidCredentials
  {
    match Find(DemoUsers(), (u: User) => u.email == email)
    case None => (s, Err(InvalidCredentials))
    case Some(u) => (AuthState(Some(u)), Ok)
  }

  /** `register(name, email, password, isTeacher)`: refused when a seeded
      account has the email; otherwise the new user, whose id is the
      seeded count plus one in decimal, is signed in. The new user is not
      added to the list. */
  function Register(s: AuthState, name: string, email: string, password: string, isTeacher: bool): (r: (AuthState, Outcome))
    ensures r.1.Err? <==> KnownEmail(email)
    ensures r.1.Err? ==> r.0 == s && r.1.error == UserAlreadyExists
    ensures r.1.Ok? ==> r.0.user == Some(User("3", name, email, isTeacher))
  {
    if FindIndex(DemoUsers(), (u: User) => u.email == email).Some? then
      (s, Err(UserAlreadyExists))
    else
      (AuthState(Some(User(NatToString(|DemoUsers()| + 1), name, email, isTeacher))), Ok)
  }

  /** `logout()`. */
  function Logout(s: AuthState): (r: AuthState)
    ensures !IsAuthenticated(r)
  {
    SignedOut
  }

  /** Logging out forgets the session entirely: the result does not depend
      on who was signed in, so logging out twice or after any sign-in is the
      same as logging out once. */
  lemma LogoutForgetsSession(s: AuthState, t: AuthState)
    ensures Logout(s) == Logout(t)
    ensures Logout(Logout(s)) == Logout(s)
    ensures Logout(AuthenticateWithFingerprint(s)) == Logout(s)
  {
  }

  /** `authenticateWithFingerprint()`: always signs in the first seeded
      account, the teacher. */
  function AuthenticateWithFingerprint(s: AuthState): (r: AuthState)
    ensures IsAuthenticated(r) && r.user.value.isTeacher
    ensures r.user.value == DemoUsers()[0] && r.user.value.email == "teacher@example.com"
  {
    AuthState(Some(DemoUsers()[0]))
  }

  // ---------------------------------------------------------------------
  // Properties

  /** Login with a seeded email succeeds with any password, and yields that
      account. */
  lemma LoginSeededAccounts(s: AuthState, password: string)
    ensures Login(s, "teacher@example.com", password) == (AuthState(Some(DemoUsers()[0])), Ok)
    ensures Login(s, "student@example.com", password) == (AuthState(Some(DemoUsers()[1])), Ok)
  {
    var p0 := (u: User) => u.email == "teacher@example.com";
    var p1 := (u: User) => u.email == "student@example.com";
    assert FindIndex(DemoUsers(), p0) == Some(0);
    assert !p1(DemoUsers()[0]);
    assert FindIndex(DemoUsers()[1..], p1) == Some(0);
  }

  /** The password never influences login. */
  lemma LoginIgnoresPassword(s: AuthState, email: string, p1: string, p2: string)
    ensures Login(s, email, p1) == Login(s, email, p2)
  {
  }

  /** Registration never remembers the new account: the same email can
      register again from the resulting state, and still cannot log in. */
  lemma RegisterIsRepeatable(s: AuthState, name: string, email: string, password: string, isTeacher: bool,
                             name2: string, password2: string, isTeacher2: bool)
    requires Register(s, name, email, password, isTeacher).1.Ok?
    ensures var s1 := Register(s, name, email, password, isTeacher).0;
            && Register(s1, name2, email, password2, isTeacher2).1.Ok?
            && Login(s1, email, password).1 == Err(InvalidCredentials)
  {
  }

  /** The registered user's id is the seeded count plus one, read back as a
      number. */
  lemma RegisteredIdIsSeededCountPlusOne(s: AuthState, name: string, email: string, password: string, isTeacher: bool)
    requires !KnownEmail(email)
    ensures var r := Register(s, name, email, password, isTeacher);
            && r.1.Ok?
            && ParseDecimal(r.0.user.value.id) == |DemoUsers()| + 1
  {
    ParseDecimalOfNatToString(|DemoUsers()| + 1);
  }

  /** `isAuthenticated` follows the outcome of every operation. */
  lemma AuthenticationFollowsOutcome(s: AuthState, name: string, email: string, password: string, isTeacher: bool)
    ensures Login(s, email, password).1.Ok? ==> IsAuthenticated(Login(s, email, password).0)
    ensures Login(s, email, password).1.Err? ==> (IsAuthenticated(Login(s, email, password).0) <==> IsAuthenticated(s))
    ensures Register(s, name, email, password, isTeacher).1.Ok? ==> IsAuthenticated(Register(s, name, email, password, isTeacher).0)
    ensures !IsAuthenticated(Logout(s))
    ensures IsAuthenticated(AuthenticateWithFingerprint(s))
  {
  }
}

=== FILE: login_page.dfy ===
/** The login page's submit handlers (src/pages/LoginPage.tsx): ordered
    checks that decide whether the auth store is called at all, and where
    the page goes afterwards. A store call that throws leaves the user on
    the page; one that completes navigates to the dashboard. */
module LoginPage {
  import opened Types
  import Auth = AuthStore
  import Scanner
  import TakeAttendance

  datatype LoginForm = LoginForm(email: string, password: string)

  datatype RegisterForm = RegisterForm(name: string, email: string, password: string,
                                       confirmPassword: string, isTeacher: bool)

  /** Why a submission was stopped before reaching the store. */
  datatype Rejection = MissingFields | IncompleteRegistration | PasswordMismatch

  /** What one user action led to. */
  datatype PageOutcome =
    | Rejected(reason: Rejection)
    | StoreFailed(error: Auth.AuthError)
    | FingerprintFailed
    | Waiting
    | ToDashboard

  /** Every field of the registration form is filled and the fingerprint is
      registered. */
  predicate RegistrationComplete(form: RegisterForm, fingerprintRegistered: bool) {
    Truthy(form.name) && Truthy(form.email) && Truthy(form.password)
    && Truthy(form.confirmPassword) && fingerprintRegistered
  }

  /** `handleLoginSubmit`: both fields are required; then `login` is awaited
      and only a completed call navigates. */
  function LoginSubmit(auth: Auth.AuthState, form: LoginForm): (r: (Auth.AuthState, PageOutcome))
    ensures !Truthy(form.email) || !Truthy(form.password) ==> r == (auth, Rejected(MissingFields))
    ensures r.1 == ToDashboard <==> Truthy(form.email) && Truthy(form.password) && Auth.KnownEmail(form.email)
    ensures r.1 == ToDashboard ==> Auth.IsAuthenticated(r.0) && r.0.user.value.email == form.email
                                   && r.0.user.value in Auth.DemoUsers()
    ensures r.1 != ToDashboard ==> r.0 == auth
    ensures r.1.StoreFailed? ==> r.1.error == Auth.InvalidCredentials
    ensures Truthy(form.email) && Truthy(form.password) ==>
              var call := Auth.Login(auth, form.email, form.password);
              && r.0 == call.0
              && (call.1.Err? ==> r.1 == StoreFailed(call.1.error))
  {
    if !Truthy(form.email) || !Truthy(form.password) then (auth, Rejected(MissingFields))
    else
      var (next, outcome) := Auth.Login(auth, form.email, form.password);
      match outcome
      case Ok => (next, ToDashboard)
      case Err(e) => (next, StoreFailed(e))
  }

  /** A filled form always reaches the store, and the store's outcome alone
      decides the page's: success navigates, a failure is reported. */
  lemma LoginSubmitCallsStore(auth: Auth.AuthState, form: LoginForm)
    requires Truthy(form.email) && Truthy(form.password)
    ensures var call := Auth.Login(auth, form.email, form.password);
            var r := LoginSubmit(auth, form);
            && r.0 == call.0
            && (r.1 == ToDashboard <==> call.1.Ok?)
            && (call.1.Err? ==> r.1 == StoreFailed(call.1.error))
  {
  }

  /** `handleRegisterSubmit`: the completeness check (all four fields and
      the fingerprint) comes first, then the password match; only then is
      `register` awaited, with name, email, password and role but not the
      confirmation. */
  function RegisterSubmit(auth: Auth.AuthState, form: RegisterForm, fingerprintRegistered: bool): (r: (Auth.AuthState, PageOutcome))
    ensures !RegistrationComplete(form, fingerprintRegistered) ==> r == (auth, Rejected(IncompleteRegistration))
    ensures RegistrationComplete(form, fingerprintRegistered) && form.password != form.confirmPassword ==>
              r == (auth, Rejected(PasswordMismatch))
    ensures r.1 == ToDashboard <==>
              RegistrationComplete(form, fingerprintRegistered) && form.password == form.confirmPassword
              && !Auth.KnownEmail(form.email)
    ensures r.1 == ToDashboard ==> r.0.user == Some(User("3", form.name, form.email, form.isTeacher))
    ensures r.1.StoreFailed? ==> r.1.error == Auth.UserAlreadyExists && Auth.KnownEmail(form.email)
    ensures r.1 != ToDashboard ==> r.0 == auth
  {
    if !RegistrationComplete(form, fingerprintRegistered) then (auth, Rejected(IncompleteRegistration))
    else if form.password != form.confirmPassword then (auth, Rejected(PasswordMismatch))
    else
      var (next, outcome) := Auth.Register(auth, form.name, form.email, form.password, form.isTeacher);
      match outcome
      case Ok => (next, ToDashboard)
      case Err(e) => (next, StoreFailed(e))
  }

  /** The register button is enabled only when no submission is in flight
      and the fingerprint has been registered. */
  predicate RegisterButtonEnabled(isSubmitting: bool, fingerprintRegistered: bool): (r: bool)
    // The form below is an arbitrary fully filled one with matching
    // passwords: the button is enabled exactly when such a form would pass
    // the handler's completeness check, given the fingerprint flag.
    ensures r <==> !isSubmitting
                   && RegistrationComplete(RegisterForm("name", "email", "pw", "pw", false), fingerprintRegistered)
  {
    !isSubmitting && fingerprintRegistered
  }

  /** The button and the handler agree: without a registered fingerprint
      the button is disabled, and a submission that reaches the handler
      anyway is rejected before the store. */
  lemma UnregisteredFingerprintBlocksRegistration(auth: Auth.AuthState, form: RegisterForm, isSubmitting: bool)
    ensures !RegisterButtonEnabled(isSubmitting, false)
    ensures RegisterSubmit(auth, form, false) == (auth, Rejected(IncompleteRegistration))
  {
  }

  /** A submission that passes every check hands the store exactly the
      name, email, password and role, and its outcome decides the page's. */
  lemma RegisterSubmitCallsStore(auth: Auth.AuthState, form: RegisterForm)
    requires RegistrationComplete(form, true) && form.password == form.confirmPassword
    ensures var call := Auth.Register(auth, form.name, form.email, form.password, form.isTeacher);
            var r := RegisterSubmit(auth, form, true);
            && r.0 == call.0
            && (r.1 == ToDashboard <==> call.1.Ok?)
            && (call.1.Err? ==> r.1 == StoreFailed(call.1.error))
  {
  }

  /** `handleFingerprintSuccess` on the login page: navigates to the
      dashboard and calls no auth operation. */
  function FingerprintLoginSuccess(auth: Auth.AuthState): (r: (Auth.AuthState, PageOutcome))
    ensures r.0 == auth && r.1 == ToDashboard
  {
    (auth, ToDashboard)
  }

  /** The login page's scanner callbacks: success navigates, failure only
      shows an error. */
  function OnLoginScanCallback(auth: Auth.AuthState, cb: Scanner.Callback): (r: (Auth.AuthState, PageOutcome))
    ensures r.0 == auth
    ensures r.1 == ToDashboard <==> cb.CallSuccess?
    ensures r.1 == FingerprintFailed <==> cb.CallError?
  {
    match cb
    case NoCallback => (auth, Waiting)
    case CallSuccess => FingerprintLoginSuccess(auth)
    case CallError => (auth, FingerprintFailed)
  }

  /** A visitor who logs in by fingerprint on this page stays signed out:
      the take-attendance guard still sends them to login, although the
      store's own fingerprint operation would have signed in the teacher. */
  lemma FingerprintLoginLeavesVisitorSignedOut(auth: Auth.AuthState, current: Option<Class>)
    requires !Auth.IsAuthenticated(auth)
    ensures var after := OnLoginScanCallback(auth, Scanner.CallSuccess);
            && after.1 == ToDashboard
            && !Auth.IsAuthenticated(after.0)
            && TakeAttendance.AccessGuard(after.0, current) == [TakeAttendance.LoginRoute]
    ensures current.Some? ==> TakeAttendance.AccessGuard(Auth.AuthenticateWithFingerprint(auth), current) == []
  {
  }
}

=== FILE: scanner.dfy ===
/** The simulated fingerprint scanner (src/components/FingerprintScanner.tsx):
    three boolean flags, a button that starts a scan unless one is running,
    and a timer whose random draw decides success or failure. The draw of
    `Math.random()` is an input; the 1.5 s delay is one atomic step. */
module Scanner {

  datatype ScannerState = ScannerState(scanning: bool, error: bool, success: bool)

  /** Which caller callback a step invokes. */
  datatype Callback = NoCallback | CallSuccess | CallError

  /** The line of text under the button. */
  datatype Label = ScanningLabel | FailedLabel | SucceededLabel | TapToScanLabel

  /** A user tap on the button, or the pending timer firing with a draw. */
  datatype Event = Tap | TimerFires(draw: real)

  const Idle := ScannerState(false, false, false)

  /** A scan succeeds when the random draw exceeds this value. */
  const SuccessThreshold: real := 0.2

  /** The invariant of every reachable state: at most one flag holds. */
  predicate AtMostOneFlag(s: ScannerState) {
    && !(s.scanning && s.error)
    && !(s.scanning && s.success)
    && !(s.error && s.success)
  }

  /** The scan button is disabled while a scan runs, which is exactly while
      the "Scanning..." label shows. */
  predicate ScanButtonEnabled(s: ScannerState): (r: bool)
    ensures r <==> StatusLabel(s) != ScanningLabel
  {
    !s.scanning
  }

  /** `handleScan`: starts scanning and clears both results. */
  function HandleScan(s: ScannerState): (r: ScannerState)
    ensures r.scanning && !r.error && !r.success
    ensures AtMostOneFlag(r)
  {
    s.(scanning := true, error := false, success := false)
  }

  /** The timer callback: stops scanning, then sets `success` and calls
      `onSuccess` when the draw exceeds the threshold, and otherwise sets
      `error` and calls `onError`. The other result flag is left as it was. */
  function CompleteScan(s: ScannerState, draw: real): (r: (ScannerState, Callback))
    ensures !r.0.scanning
    ensures draw > SuccessThreshold ==> r.0.success && r.0.error == s.error && r.1 == CallSuccess
    ensures !(draw > SuccessThreshold) ==> r.0.error && r.0.success == s.success && r.1 == CallError
    ensures !s.error && !s.success ==> (r.0.success <==> r.1 == CallSuccess) && (r.0.error <==> r.1 == CallError)
    ensures !s.error && !s.success ==> AtMostOneFlag(r.0) && (r.0.success || r.0.error)
  {
    var stopped := s.(scanning := false);
    if draw > SuccessThreshold then (stopped.(success := true), CallSuccess)
    else (stopped.(error := true), CallError)
  }

  /** One event. A tap on the disabled button does nothing; a timer is
      pending exactly while `scanning` holds (only `handleScan` sets it and
      only the timer clears it), so a timer event in any other state does
      nothing either. */
  function Step(s: ScannerState, e: Event): (r: (ScannerState, Callback))
    ensures AtMostOneFlag(s) ==> AtMostOneFlag(r.0)
    ensures e.Tap? && s.scanning ==> r == (s, NoCallback)
    ensures e.Tap? && !s.scanning ==> r.0.scanning && !r.0.error && !r.0.success && r.1 == NoCallback
    ensures e.TimerFires? && !s.scanning ==> r == (s, NoCallback)
    ensures e.TimerFires? && s.scanning && AtMostOneFlag(s) ==>
              && !r.0.scanning
              && (r.0.success <==> e.draw > SuccessThreshold)
              && (r.0.error <==> !(e.draw > SuccessThreshold))
              && (r.1 == CallSuccess <==> r.0.success)
              && (r.1 == CallError <==> r.0.error)
  {
    match e
    case Tap => if ScanButtonEnabled(s) then (HandleScan(s), NoCallback) else (s, NoCallback)
    case TimerFires(draw) => if s.scanning then CompleteScan(s, draw) else (s, NoCallback)
  }

  /** The state after a sequence of events, and the callbacks invoked. */
  function Run(s: ScannerState, events: seq<Event>): (ScannerState, seq<Callback>)
    decreases |events|
  {
    if |events| == 0 then (s, [])
    else
      var step := Step(s, events[0]);
      var rest := Run(step.0, events[1..]);
      (rest.0, [step.1] + rest.1)
  }

  /** At most one of `scanning`, `error`, `success` holds in every state
      reachable from the initial one. */
  lemma {:induction false} ReachableAtMostOneFlag(s: ScannerState, events: seq<Event>)
    requires AtMostOneFlag(s)
    ensures AtMostOneFlag(Run(s, events).0)
    decreases |events|
  {
    if |events| > 0 {
      ReachableAtMostOneFlag(Step(s, events[0]).0, events[1..]);
    }
  }

  /** A tap followed by the timer invokes exactly one callback, chosen by
      the draw, and leaves exactly the matching flag set. */
  lemma ScanRoundTrip(s: ScannerState, draw: real)
    requires ScanButtonEnabled(s)
    ensures var (r, cbs) := Run(s, [Tap, TimerFires(draw)]);
            && !r.scanning
            && (draw > SuccessThreshold ==> r.success && !r.error && cbs == [NoCallback, CallSuccess])
            && (!(draw > SuccessThreshold) ==> r.error && !r.success && cbs == [NoCallback, CallError])
  {
    var t := HandleScan(s);
    assert Step(s, Tap) == (t, NoCallback);
    var (u, cb) := CompleteScan(t, draw);
    assert Step(t, TimerFires(draw)) == (u, cb);
    assert Run(u, []) == (u, []);
    assert [Tap, TimerFires(draw)][1..] == [TimerFires(draw)];
    assert [TimerFires(draw)][1..] == [];
    assert [cb] + [] == [cb];
    assert Run(t, [TimerFires(draw)]) == (u, [cb]);
  }

  /** The status line: scanning takes precedence over a failure, a failure
      over a success, and a success over the idle prompt. */
  function StatusLabel(s: ScannerState): (r: Label)
    ensures r == ScanningLabel <==> s.scanning
    ensures r == FailedLabel <==> !s.scanning && s.error
    ensures r == SucceededLabel <==> !s.scanning && !s.error && s.success
    ensures r == TapToScanLabel <==> !s.scanning && !s.error && !s.success
  {
    if s.scanning then ScanningLabel
    else if s.error then FailedLabel
    else if s.success then SucceededLabel
    else TapToScanLabel
  }

  /** In a reachable state the precedence never hides a flag: each label
      shows exactly when its own flag holds. */
  lemma LabelShowsTheOnlyFlag(s: ScannerState)
    requires AtMostOneFlag(s)
    ensures StatusLabel(s) == FailedLabel <==> s.error
    ensures StatusLabel(s) == SucceededLabel <==> s.success
  {
  }
}

=== FILE: take_attendance.dfy ===
/** The take-attendance page (src/pages/TakeAttendancePage.tsx): an access
    guard, then a cursor that walks the current class's roster. Each handler
    marks the student under the cursor through the attendance store, then
    either advances the cursor or flips to "complete". The delayed cursor
    advance after a scan is one atomic step. */
module TakeAttendance {
  import opened Types
  import A = AttendanceStore
  import Auth = AuthStore
  import Scanner

  /** The page's local state: `currentIndex` and `scanningComplete`. */
  datatype Walker = Walker(index: nat, complete: bool)

  /** What the teacher did for the student under the cursor. */
  datatype Mark = FingerprintSuccess | FingerprintError | ManualMark(status: AttendanceStatus)

  datatype Route = LoginRoute | DashboardRoute

  /** What the page's main area shows. */
  datatype View = NoPage | CompleteView | StudentView(student: Student, position: nat, total: nat) | EmptyView

  const Start := Walker(0, false)

  /** The roster the page walks: the current class's students, or none
      when there is no current class. */
  function Roster(s: A.Store): (r: seq<Student>)
    ensures r != [] ==> A.CurrentClass(s).Some?
    ensures A.CurrentClass(s).Some? ==> r == A.CurrentClass(s).value.students
  {
    match A.CurrentClass(s)
    case None => []
    case Some(c) => c.students
  }

  /** The status each handler writes: a fingerprint match is present, a
      failed scan absent, and a button its own status. Only a button can
      record a late arrival. */
  function MarkedStatus(m: Mark): (r: AttendanceStatus)
    ensures m.ManualMark? ==> r == m.status
    ensures !m.ManualMark? ==> (r == Present <==> m == FingerprintSuccess)
    ensures !m.ManualMark? ==> (r == Absent <==> m == FingerprintError)
    ensures r == Late ==> m == ManualMark(Late)
  {
    match m
    case FingerprintSuccess => Present
    case FingerprintError => Absent
    case ManualMark(status) => status
  }

  /** The roster seen after a store update: marked when the current class
      id is truthy, untouched otherwise. */
  lemma RosterAfterUpdate(s: A.Store, studentId: string, status: AttendanceStatus)
    ensures var t := A.UpdateStudentStatus(s, studentId, status);
            && A.CurrentClass(t).Some? == A.CurrentClass(s).Some?
            && (s.currentClassId.Some? && Truthy(s.currentClassId.value) ==>
                  A.Marked(Roster(s), Roster(t), studentId, status))
            && (s.currentClassId.None? || !Truthy(s.currentClassId.value) ==> Roster(t) == Roster(s))
  {
    if s.currentClassId.Some? && Truthy(s.currentClassId.value) {
      A.UpdateMarksCurrentClass(s, studentId, status);
    }
  }

  /** `handleFingerprintSuccess`, `handleFingerprintError` and
      `handleManualStatus`: nothing without a student under the cursor;
      otherwise the student is marked, and the cursor advances unless it is
      on the last student, in which case the walk completes. */
  function Handle(s: A.Store, w: Walker, m: Mark): (r: (A.Store, Walker))
    ensures w.index >= |Roster(s)| ==> r == (s, w)
    ensures w.index < |Roster(s)| ==> r.0 == A.UpdateStudentStatus(s, Roster(s)[w.index].id, MarkedStatus(m))
    ensures w.index + 1 < |Roster(s)| ==> r.1 == Walker(w.index + 1, w.complete)
    ensures w.index + 1 == |Roster(s)| ==> r.1 == Walker(w.index, true)
    ensures |Roster(r.0)| == |Roster(s)|
    ensures s.currentClassId.Some? && Truthy(s.currentClassId.value) && w.index < |Roster(s)| ==>
              Roster(r.0)[w.index].status == MarkedStatus(m)
  {
    var students := Roster(s);
    if w.index >= |students| then (s, w)
    else
      var student := students[w.index];
      RosterAfterUpdate(s, student.id, MarkedStatus(m));
      var t := A.UpdateStudentStatus(s, student.id, MarkedStatus(m));
      if w.index < |students| - 1 then (t, w.(index := w.index + 1))
      else (t, w.(complete := true))
  }

  /** For a non-empty roster the cursor stays on a student. */
  predicate CursorInRoster(s: A.Store, w: Walker) {
    |Roster(s)| > 0 ==> w.index < |Roster(s)|
  }

  lemma HandleKeepsCursorInRoster(s: A.Store, w: Walker, m: Mark)
    requires CursorInRoster(s, w)
    ensures CursorInRoster(Handle(s, w, m).0, Handle(s, w, m).1)
  {
  }

  /** The state after a sequence of marks, applied in order. */
  function Walk(s: A.Store, w: Walker, marks: seq<Mark>): (A.Store, Walker)
    decreases |marks|
  {
    if |marks| == 0 then (s, w)
    else
      var prev := Walk(s, w, marks[..|marks| - 1]);
      Handle(prev.0, prev.1, marks[|marks| - 1])
  }

  /** With distinct ids, one handler call changes exactly the student under
      the cursor. */
  lemma HandleMarksOnlyCursor(s: A.Store, w: Walker, m: Mark)
    requires s.currentClassId.Some? && Truthy(s.currentClassId.value)
    requires DistinctIds(Roster(s))
    requires w.index < |Roster(s)|
    ensures Handle(s, w, m).0.currentClassId == s.currentClassId
    ensures Roster(Handle(s, w, m).0) == Roster(s)[w.index := Roster(s)[w.index].(status := MarkedStatus(m))]
  {
    var roster := Roster(s);
    var student := roster[w.index];
    RosterAfterUpdate(s, student.id, MarkedStatus(m));
    var after := Roster(Handle(s, w, m).0);
    var expected := roster[w.index := student.(status := MarkedStatus(m))];
    assert |after| == |expected|;
    forall j | 0 <= j < |roster|
      ensures after[j] == expected[j]
    {
      if j != w.index {
        assert roster[j].id != student.id;
      }
    }
  }

  /** The roster after marking its first |marks| students in order. */
  function MarkedPrefix(roster: seq<Student>, marks: seq<Mark>): (r: seq<Student>)
    requires |marks| <= |roster|
    ensures |r| == |roster|
    ensures forall j :: 0 <= j < |roster| ==> r[j].id == roster[j].id && r[j].name == roster[j].name
    ensures forall j :: 0 <= j < |marks| ==> r[j].status == MarkedStatus(marks[j])
    ensures forall j :: |marks| <= j < |roster| ==> r[j] == roster[j]
  {
    seq(|roster|, j requires 0 <= j < |roster| =>
      if j < |marks| then roster[j].(status := MarkedStatus(marks[j])) else roster[j])
  }

  /** Marking one more student extends the marked prefix by one. */
  lemma ExtendMarkedPrefix(roster: seq<Student>, marks: seq<Mark>)
    requires 0 < |marks| <= |roster|
    ensures var k := |marks| - 1;
            MarkedPrefix(roster, marks[..k])[k := roster[k].(status := MarkedStatus(marks[k]))]
              == MarkedPrefix(roster, marks)
  {
  }

  /** Marking changes no id, so distinct ids stay distinct. */
  lemma MarkedPrefixKeepsDistinctIds(roster: seq<Student>, marks: seq<Mark>)
    requires |marks| <= |roster|
    requires DistinctIds(roster)
    ensures DistinctIds(MarkedPrefix(roster, marks))
  {
  }

  /** Walking k marks from the start over a roster with distinct ids marks
      the first k students, in order, each with its own mark, leaves the
      rest untouched, and completes exactly at the last student. */
  lemma {:induction false} WalkMarksInOrder(s: A.Store, marks: seq<Mark>)
    requires s.currentClassId.Some? && Truthy(s.currentClassId.value)
    requires DistinctIds(Roster(s))
    requires |marks| <= |Roster(s)|
    ensures Walk(s, Start, marks).0.currentClassId == s.currentClassId
    ensures Roster(Walk(s, Start, marks).0) == MarkedPrefix(Roster(s), marks)
    ensures |marks| < |Roster(s)| ==> Walk(s, Start, marks).1 == Walker(|marks|, false)
    ensures 0 < |marks| == |Roster(s)| ==> Walk(s, Start, marks).1 == Walker(|marks| - 1, true)
    decreases |marks|
  {
    var roster := Roster(s);
    if |marks| == 0 {
      assert MarkedPrefix(roster, marks) == roster;
    } else {
      var k := |marks| - 1;
      var before := marks[..k];
      WalkMarksInOrder(s, before);
      var prev := Walk(s, Start, before);
      MarkedPrefixKeepsDistinctIds(roster, before);
      HandleMarksOnlyCursor(prev.0, prev.1, marks[k]);
      ExtendMarkedPrefix(roster, marks);
    }
  }

  /** The main area: nothing without a current class; otherwise the
      completion message once the walk is complete, else the student under
      the cursor, else an empty area. */
  function PageView(s: A.Store, w: Walker): (r: View)
    ensures r == NoPage <==> A.CurrentClass(s).None?
    ensures r == CompleteView <==> A.CurrentClass(s).Some? && w.complete
    ensures r == EmptyView <==> A.CurrentClass(s).Some? && !w.complete && w.index >= |Roster(s)|
    ensures r.StudentView? <==> A.CurrentClass(s).Some? && !w.complete && w.index < |Roster(s)|
    ensures r.StudentView? ==> r.student == Roster(s)[w.index] && r.position == w.index + 1 && r.total == |Roster(s)|
  {
    if A.CurrentClass(s).None? then NoPage
    else if w.complete then CompleteView
    else if w.index < |Roster(s)| then StudentView(Roster(s)[w.index], w.index + 1, |Roster(s)|)
    else EmptyView
  }

  /** A mark as the page offers it: the scanner and the manual buttons are
      only on screen in the per-student view. */
  function OfferedHandle(s: A.Store, w: Walker, m: Mark): (r: (A.Store, Walker))
    ensures !PageView(s, w).StudentView? ==> r == (s, w)
    ensures PageView(s, w).StudentView? ==> r == Handle(s, w, m)
  {
    if PageView(s, w).StudentView? then Handle(s, w, m) else (s, w)
  }

  /** The cursor alone, for any store: k marks from the start keep the
      roster's length, leave the cursor at k before the end, and complete
      exactly with the n-th mark. */
  lemma {:induction false} WalkMovesCursor(s: A.Store, marks: seq<Mark>)
    requires |marks| <= |Roster(s)|
    ensures |Roster(Walk(s, Start, marks).0)| == |Roster(s)|
    ensures |marks| < |Roster(s)| ==> Walk(s, Start, marks).1 == Walker(|marks|, false)
    ensures 0 < |marks| == |Roster(s)| ==> Walk(s, Start, marks).1 == Walker(|marks| - 1, true)
    decreases |marks|
  {
    if |marks| > 0 {
      WalkMovesCursor(s, marks[..|marks| - 1]);
    }
  }

  /** Once the walk is complete the completion view takes over, and no
      further mark reaches the store. */
  lemma CompletionIsFinal(s: A.Store, marks: seq<Mark>, m: Mark)
    requires 0 < |marks| == |Roster(s)|
    ensures var (t, w) := Walk(s, Start, marks);
            && PageView(t, w) == CompleteView
            && OfferedHandle(t, w, m) == (t, w)
  {
    WalkMovesCursor(s, marks);
  }

  /** Every store reachable from the seeded one meets both premises of
      `WalkMarksInOrder`, `HandleMarksOnlyCursor` and `ScanMarksStudent`:
      the page's roster has distinct ids, and a non-empty roster comes with
      a truthy current class id. */
  lemma ReachableRosterMeetsPremises(ops: seq<A.StoreOp>)
    ensures var s := A.ApplyAll(A.Init(), ops);
            && DistinctIds(Roster(s))
            && (Roster(s) != [] ==> s.currentClassId.Some? && Truthy(s.currentClassId.value))
  {
    var s := A.ApplyAll(A.Init(), ops);
    A.ReachableWellFormed(ops);
    if A.CurrentClass(s).Some? {
      var c := A.CurrentClass(s).value;
      var i :| 0 <= i < |s.classes| && s.classes[i] == c;
    }
  }

  /** The in-order walk without premises, for every reachable store: k
      marks from the start mark exactly the first k students. */
  lemma ReachableWalkMarksInOrder(ops: seq<A.StoreOp>, marks: seq<Mark>)
    requires |marks| <= |Roster(A.ApplyAll(A.Init(), ops))|
    ensures var s := A.ApplyAll(A.Init(), ops);
            Roster(Walk(s, Start, marks).0) == MarkedPrefix(Roster(s), marks)
  {
    var s := A.ApplyAll(A.Init(), ops);
    ReachableRosterMeetsPremises(ops);
    if Roster(s) == [] {
      assert marks == [];
      assert MarkedPrefix(Roster(s), marks) == [];
    } else {
      WalkMarksInOrder(s, marks);
    }
  }

  /** The access-guard effect: the navigations it performs, in order. An
      unauthenticated visitor goes to login; otherwise a non-teacher and a
      missing current class each send the user to the dashboard (both checks
      run, so both can fire). */
  function AccessGuard(auth: Auth.AuthState, current: Option<Class>): (r: seq<Route>)
    ensures !Auth.IsAuthenticated(auth) ==> r == [LoginRoute]
    ensures r == [] <==> Auth.IsAuthenticated(auth) && auth.user.value.isTeacher && current.Some?
    ensures LoginRoute in r <==> !Auth.IsAuthenticated(auth)
    ensures Auth.IsAuthenticated(auth) ==> forall k :: 0 <= k < |r| ==> r[k] == DashboardRoute
    ensures |r| <= 2
  {
    if !Auth.IsAuthenticated(auth) then [LoginRoute]
    else
      (if !auth.user.value.isTeacher then [DashboardRoute] else [])
      + (if current.None? then [DashboardRoute] else [])
  }

  /** The scanner's callback dispatched to the page: `onSuccess` to the
      fingerprint-success handler, `onError` to the fingerprint-error one. */
  function OnScanCallback(s: A.Store, w: Walker, cb: Scanner.Callback): (r: (A.Store, Walker))
    ensures cb.NoCallback? ==> r == (s, w)
    ensures cb.CallSuccess? ==> r == Handle(s, w, FingerprintSuccess)
    ensures cb.CallError? ==> r == Handle(s, w, FingerprintError)
  {
    match cb
    case NoCallback => (s, w)
    case CallSuccess => Handle(s, w, FingerprintSuccess)
    case CallError => Handle(s, w, FingerprintError)
  }

  /** A completed scan marks the student under the cursor present exactly
      when the draw exceeds the threshold, and absent otherwise. */
  lemma ScanMarksStudent(s: A.Store, w: Walker, scanner: Scanner.ScannerState, draw: real)
    requires s.currentClassId.Some? && Truthy(s.currentClassId.value)
    requires w.index < |Roster(s)|
    requires scanner.scanning && Scanner.AtMostOneFlag(scanner)
    ensures var cb := Scanner.Step(scanner, Scanner.TimerFires(draw)).1;
            var t := OnScanCallback(s, w, cb).0;
            Roster(t)[w.index].status == (if draw > Scanner.SuccessThreshold then Present else Absent)
  {
  }
}

=== FILE: types.dfy ===
/** The records of the attendance tracker (src/types.ts) and the two
    JavaScript idioms the stores lean on: `Array.prototype.find` and the
    truthiness test of a string. */
module Types {

  /** `T | null` / `T | undefined`. */
  datatype Option<T> = None | Some(value: T)

  /** The three-valued attendance status. */
  datatype AttendanceStatus = Present | Absent | Late

  datatype Student = Student(id: string, name: string, status: AttendanceStatus)

  /** A class with its ordered roster. */
  datatype Class = Class(id: string, name: string, students: seq<Student>)

  datatype User = User(id: string, name: string, email: string, isTeacher: bool)

  /** No two students of the roster share an id (true of the seeded data). */
  predicate DistinctIds(students: seq<Student>) {
    forall i, j :: 0 <= i < j < |students| ==> students[i].id != students[j].id
  }

  /** JavaScript truthiness of a string: only the empty string is falsy. */
  predicate Truthy(s: string) {
    s != ""
  }

  /** The index of the first element satisfying `p`, the way `find` and
      `some` scan an array from the front. */
  function FindIndex<T>(xs: seq<T>, p: T -> bool): (r: Option<nat>)
    ensures r.Some? ==> r.value < |xs| && p(xs[r.value])
    ensures r.Some? ==> forall j :: 0 <= j < r.value ==> !p(xs[j])
    ensures r.None? <==> forall j :: 0 <= j < |xs| ==> !p(xs[j])
    decreases |xs|
  {
    if |xs| == 0 then None
    else if p(xs[0]) then Some(0)
    else
      match FindIndex(xs[1..], p)
      case None => None
      case Some(k) => Some(k + 1)
  }

  /** `xs.find(p)`: the first element satisfying `p`, if any. */
  function Find<T>(xs: seq<T>, p: T -> bool): (r: Option<T>)
    ensures r.None? <==> forall j :: 0 <= j < |xs| ==> !p(xs[j])
    ensures r.Some? ==> exists i :: 0 <= i < |xs| && xs[i] == r.value && p(xs[i])
                                    && forall j :: 0 <= j < i ==> !p(xs[j])
  {
    match FindIndex(xs, p)
    case None => None
    case Some(i) => Some(xs[i])
  }

  /** Two predicates that agree on every element find the same index. */
  lemma {:induction false} FindIndexCongruent<T, U>(xs: seq<T>, p: T -> bool, ys: seq<U>, q: U -> bool)
    requires |xs| == |ys|
    requires forall j :: 0 <= j < |xs| ==> (p(xs[j]) <==> q(ys[j]))
    ensures FindIndex(xs, p) == FindIndex(ys, q)
    decreases |xs|
  {
    if |xs| > 0 && !p(xs[0]) {
      FindIndexCongruent(xs[1..], p, ys[1..], q);
    }
  }
}
